=== FILE: README.md ===
# Oppia third-party dependency installer, modelled in Dafny

This project models the core of Oppia's third-party dependency installer,
`scripts/install_dependencies_json_packages.py`. The installer reads a
manifest (`dependencies.json`) of libraries, grouped by category (`proto`,
`frontend`, `oppiaTools`). Each entry gives a `version`, a `url` and a
`downloadFormat` (`zip`, `tar` or `files`), plus the keys that name the
folders involved.

It works in three steps:

- **Validation.** The whole manifest is checked before anything is
  fetched. An entry must carry every mandatory key of its format, in table
  order. For zip it must carry exactly one key of each optional pair:
  `rootDir`/`rootDirPrefix` and `targetDir`/`targetDirPrefix`. Its URL,
  cut at the last `#`, must end in `.zip` for zip, in `.tar.gz` for tar,
  and in neither for a file list.
- **Name resolution and dispatch.** Each entry becomes a call to one of
  three fetchers. A folder name is either given explicitly or built as
  prefix + version.
- **Fetching.** Each fetcher is idempotent:
  - the file-list fetcher requests only the files that are missing;
  - the zip and tar fetchers do nothing if the target folder exists.
    Otherwise they download to `./tmp_unzip.zip`, extract into the
    category's directory, and rename the archive's root folder to the
    target name.

Modules, one per component:

- `Wrappers` (`wrappers.dfy`): `Option`.
- `Disk` (`disk.dfy`): the abstract filesystem. It is a set of paths,
  where a path is a sequence of components. It provides `makedirs`,
  `extractall` and `rename`.
- `Schema` (`schema.dfy`): the entry datatype, the key table and the
  syntax check. Failures return a typed `Verdict` instead of calling
  `sys.exit(1)`.
- `Fetchers` (`fetchers.dfy`): the three fetchers. Each is a function from
  a filesystem state and a network to a `Run`. A `Run` holds the final
  state, the requests made, and whether the call completed or raised.
- `Installer` (`installer.dfy`): manifest validation, name resolution,
  dispatch and the sequential run.

Parameters replace the network and the archive contents. A `Network` maps
each reachable URL to what its bytes unpack to, for a plain request and
for a request with a user-agent header. A request for any other URL
raises.

## Model

| member | source | states |
|---|---|---|
| Schema.ParseFormat | scripts/install_dependencies_json_packages.py:294-299 | only the tags `zip`, `tar` and `files` are found in the key table; any other tag is the failed table lookup |
| Schema.FormatTag | scripts/install_dependencies_json_packages.py:57-59 | each format's tag parses back to that format |
| Schema.MandatoryKeys | scripts/install_dependencies_json_packages.py:82-98 | every format requires `version`, `url` and `downloadFormat`; `files` also requires `files` and `targetDirPrefix`; `tar` also requires `tarRootDirPrefix` and `targetDirPrefix` |
| Schema.OptionalKeyPairs | scripts/install_dependencies_json_packages.py:84-85 | zip has the pairs `rootDir`/`rootDirPrefix` and `targetDir`/`targetDirPrefix`; `files` and `tar` have no pairs |
| Schema.FirstMissing | scripts/install_dependencies_json_packages.py:300-307 | the key reported is the first absent key in table order, and every key before it is present |
| Schema.FirstBadPair | scripts/install_dependencies_json_packages.py:308-320 | `test_dependencies_syntax` tests the member count against 1; every pair before the reported one has exactly one member, and the reported pair has both or neither |
| Schema.LastIndexOf | scripts/install_dependencies_json_packages.py:324-325 | gives the position of the last occurrence of a character, with none after it; returns None exactly when the character is absent |
| Schema.StripFragment | scripts/install_dependencies_json_packages.py:323-325 | a URL without `#` is unchanged; otherwise the result is the part before the last `#`, and no `#` follows that one |
| Schema.SuffixesExclusive | scripts/install_dependencies_json_packages.py:328-331 | no URL ends in both `.zip` and `.tar.gz`, so the two suffix tests never both hold |
| Schema.UrlCheckIsUrlFits | scripts/install_dependencies_json_packages.py:326-338 | the four-way URL condition of `test_dependencies_syntax` passes exactly when: zip ends in `.zip`; tar ends in `.tar.gz`; files ends in neither |
| Schema.CheckEntry | scripts/install_dependencies_json_packages.py:282-338 | the entry passes exactly when all mandatory keys are present, every pair has exactly one member, and the stripped URL fits the format; otherwise the first failure is reported, checked in the order keys, pairs, URL: a missing key is the first absent one in table order, and a pair violation is the first pair in table order without exactly one member |
| Disk.MakeDirs | scripts/install_dependencies_json_packages.py:147 | afterwards the directory and every directory above it exist; no other path changes |
| Disk.Extract | scripts/install_dependencies_json_packages.py:189-190 | every archive member and its root folder exist under the parent; a name directly inside the parent exists afterwards exactly when it existed before or is a top-level name of the archive; nothing outside the parent changes, and inside it nothing under another name changes; every new path is, below the parent, a member of the archive or a folder on the way to one |
| Disk.Rename | scripts/install_dependencies_json_packages.py:206-208 | fails exactly when the source is missing or the destination exists as another path; otherwise the subtree moves to the destination and paths outside both subtrees are unchanged; everything under the destination afterwards was under the source or already under the destination |
| Fetchers.FileUrlInjective | scripts/install_dependencies_json_packages.py:151-152 | two file names with the same source URL are the same name |
| Fetchers.FetchEach | scripts/install_dependencies_json_packages.py:148-153 | the loop only adds listed paths; on completion the state is the old state plus every listed path; an abort is caused by the last requested URL being unreachable |
| Fetchers.FetchEachOnlyMissing | scripts/install_dependencies_json_packages.py:148-153 | every request is for a listed file whose path did not exist |
| Fetchers.FetchEachAllMissing | scripts/install_dependencies_json_packages.py:148-153 | a completed loop has requested every listed file that was missing |
| Fetchers.FetchEachNoRepeats | scripts/install_dependencies_json_packages.py:148-153 | no file is requested twice, even when its name is listed twice |
| Fetchers.FetchEachCompletes | scripts/install_dependencies_json_packages.py:148-153 | the loop completes exactly when the URL of every listed file that is missing is reachable |
| Fetchers.FetchFiles | scripts/install_dependencies_json_packages.py:128-153 | whatever the outcome, nothing is deleted and only the directory, the folders above it and the listed files are added; it requests exactly the missing files, each once, and none when all exist; on completion the state is the old state plus the directory and the listed files; it raises only at its last request, whose URL is unreachable; paths unrelated to the directory are untouched |
| Fetchers.FetchFilesCompletes | scripts/install_dependencies_json_packages.py:128-153 | the call completes exactly when the URL of every listed file that is missing is reachable |
| Fetchers.ExtractInto | scripts/install_dependencies_json_packages.py:189-191 | the members are extracted and the temporary archive is gone if it was removed; nothing outside the parent changes; inside the parent, a name exists afterwards exactly when it existed before or the archive creates it, and nothing under any other name changes; every new path is, below the parent, a member of the archive or a folder on the way to one |
| Fetchers.RenameRoot | scripts/install_dependencies_json_packages.py:205-208 | succeeds exactly when the root folder exists and the target is absent or the same folder; the root's contents move to the target, and nothing remains under the root name when it differs from the target; nothing outside the parent changes, and inside it nothing under a name other than the root and the target changes; everything under the target afterwards was under the root or already under the target |
| Fetchers.Unpack | scripts/install_dependencies_json_packages.py:188-208 | after extract and rename, the target exists and holds the members of the archive's root folder; nothing remains under the root name when it differs from the target; inside the parent, nothing under a name other than the root, the target and the archive's top-level names changes; everything under the target afterwards was there before, was under the root folder, or is a path of the archive's root folder |
| Fetchers.FetchZip | scripts/install_dependencies_json_packages.py:158-210 | no request and no change when the target exists; otherwise exactly one plain request for the URL, followed by one user-agent request exactly when the plain archive does not unpack; on completion the target holds the root folder's members and nothing remains under a different root name; the temporary archive is gone; the parent and the folders above it are only ever created, and all exist afterwards; nothing outside the parent or the temporary path changes |
| Fetchers.FetchZipOutcome | scripts/install_dependencies_json_packages.py:181-208 | with the target missing, the call completes exactly when the URL serves an archive, plainly or on the user-agent retry, and the rename can happen: the root folder exists after extraction, and the archive does not itself create the target under another name. It raises as unreachable exactly when the URL is unknown, as not an archive exactly when neither request unpacks, and otherwise only at the rename |
| Fetchers.FetchZipTarget | scripts/install_dependencies_json_packages.py:181-208 | when the target was missing and the call completes, the archive served is the plain one or the user-agent retry's, and everything under the target afterwards was there before, was under the root folder, or is a path of that archive's root folder |
| Fetchers.FetchZipFrame | scripts/install_dependencies_json_packages.py:181-208 | inside the parent, nothing under a name other than the root, the target and the archive's top-level names changes |
| Fetchers.FetchTar | scripts/install_dependencies_json_packages.py:213-252 | no request and no change when the target exists; otherwise exactly one plain request, for the URL; on completion the target holds the root folder's members, nothing remains under a different root name, and the temporary archive is gone; the parent and the folders above it are only ever created, and all exist afterwards; everything under the target afterwards was there before, was under the root folder, or is a path of the archive's root folder; an archive that does not unpack leaves the temporary file behind |
| Fetchers.FetchTarOutcome | scripts/install_dependencies_json_packages.py:236-250 | with the target missing, the call completes exactly when the URL serves a tar archive and the rename can happen; it raises as unreachable exactly when the URL is unknown, as not an archive exactly when the download does not unpack, and otherwise only at the rename |
| Fetchers.FetchTarFrame | scripts/install_dependencies_json_packages.py:236-250 | inside the parent, nothing under a name other than the root, the target and the archive's top-level names changes |
| Installer.TargetDownloadDir | scripts/install_dependencies_json_packages.py:51-55 | each category has a non-empty target directory that is not above the temporary archive path |
| Installer.Diagnose | scripts/install_dependencies_json_packages.py:352-359 | a dependency is refused exactly when its entry is not valid; a missing `downloadFormat` is reported as such; a tag outside the key table is reported as an unknown format; a known format with an invalid entry is a syntax error of that dependency, carrying the verdict of the key-table check |
| Installer.FirstInvalid | scripts/install_dependencies_json_packages.py:352-359 | scanning from a given position, every dependency before the reported position is valid, and the one at it is not |
| Installer.ValidateManifest | scripts/install_dependencies_json_packages.py:341-359 | the manifest passes exactly when every entry is valid; otherwise the error is that of the first invalid entry in manifest order |
| Installer.ValidHasNames | scripts/install_dependencies_json_packages.py:82-98 | a valid entry carries the version and URL, the prefixes its format requires, and for zip exactly one of each explicit-name/prefix pair, so every value name resolution reads is there |
| Installer.PlanResolvesNames | scripts/install_dependencies_json_packages.py:371-409 | the fetcher matches the declared format; a zip root or target uses the explicit name when present and otherwise prefix + version; tar and files always use prefix + version; archives go to the category directory and file lists to prefix + version below it |
| Installer.Execute | scripts/install_dependencies_json_packages.py:376-409 | a job already materialized makes no request and changes nothing; a completed job leaves its work materialized |
| Installer.ExecuteRequests | scripts/install_dependencies_json_packages.py:376-409 | a job requests only its own archive URL or its own listed files, and a file-list job only those listed files that were missing before the call; a job raises only after a request |
| Installer.ExecuteIdempotent | scripts/install_dependencies_json_packages.py:149-236 | running a completed job a second time makes no request and changes nothing, because of the existence tests of the three fetchers (line 149 for each file, line 181 for the zip target, line 236 for the tar target) |
| Installer.RunPlans | scripts/install_dependencies_json_packages.py:369-409 | when every dependency's work is already on disk, the download loop makes no request and leaves the filesystem unchanged; each dependency is fetched in manifest order (Installer.RunPlansStep) |
| Installer.RunEachSplit | scripts/install_dependencies_json_packages.py:369-409 | a sequential run splits after any number of jobs: if the first part raised, that is the whole run; otherwise the rest runs on the disk the first part left, and the requests are those of the first part followed by those of the rest |
| Installer.RunJobsStep | scripts/install_dependencies_json_packages.py:369-409 | job `i` is fetched on the disk the jobs before it left, its requests follow theirs, and the run of the first `i + 1` jobs ends as that fetch does; a raise before job `i` ends the run there |
| Installer.RunPlansStep | scripts/install_dependencies_json_packages.py:369-409 | the download loop fetches every dependency in manifest order: dependency `i` is fetched on the disk the dependencies before it left, after their requests, unless one of them raised |
| Installer.RunPlansRequests | scripts/install_dependencies_json_packages.py:369-409 | every request of the download loop is one that some dependency's job makes, and the loop raises only after a request |
| Installer.RunPlansLastMaterialized | scripts/install_dependencies_json_packages.py:369-409 | a completed, non-empty download loop leaves the last dependency's work on disk |
| Installer.Install | scripts/install_dependencies_json_packages.py:362-409 | the manifest is rejected, before any request, exactly when some entry is invalid, with the first invalid entry's error; a valid, fully materialized manifest installs with no request and no change; when the jobs run, every request belongs to some dependency's job, a raise follows a request, and a completed run leaves the last dependency's work on disk; the run is the download loop's, so each dependency is fetched in manifest order (Installer.RunPlansStep) |
| Installer.ZipExamplePlan | scripts/install_dependencies_json_packages.py:384-399 | the prefix-named zip entry for `pkg` version 3 is valid and resolves both root and target to `pkg-3` under `./third_party` |
| Installer.ZipExampleFetches | scripts/install_dependencies_json_packages.py:181-208 | fetching that entry into an empty filesystem makes one request and keeps the archive's file under `./third_party/pkg-3` |
| Installer.ZipExampleInstalls | scripts/install_dependencies_json_packages.py:362-399 | installing the one-entry manifest completes with one request, and `./third_party/pkg-3` and its file exist |

## Left out

- Reading and parsing the manifest (`get_file_contents`, `return_json`). The model takes the manifest as a parsed list of dependencies in iteration order.
- Field values are assumed well-typed: strings, and a list of strings for `files`. A value of another JSON type may make the installer raise (at `'#' in`, `endswith`, `+`, `os.path.join` or the `isinstance` assertion) or may pass through unused, as a numeric `version` does when `rootDir` and `targetDir` are both given.
- The `bundle` key and unknown keys are not modelled. Nothing in the core reads them.
- `TARGET_DOWNLOAD_DIRS` is a total map over the three known categories. An unknown category name raises `KeyError` in the installer only at download time; the model does not represent it.
- Network and archive internals (`common.url_retrieve`, `utils.url_open`, `zipfile`, `tarfile`) are opaque. The model says which URLs are reachable and what set of member paths a download unpacks to. File contents are not modelled.
- Extraction either succeeds whole or raises before writing anything. A partial extraction followed by an exception is not modelled.
- The user-agent fallback is modelled as a second request whose archive is extracted. The fact that it catches any exception, not only a failed unpack, is not modelled.
- Disk.Rename: renaming a folder onto an existing empty folder succeeds on POSIX; the model treats it as a failure. Renaming a folder onto itself succeeds, as in the installer.
- Paths are sequences of components, and joining appends one component. `os.path.join` normalisation and separators inside names are not modelled.
- Fetchers.FetchZip: the root-folder and temporary-file postconditions assume the parent directory does not contain `./tmp_unzip.zip`. All three category directories satisfy this (see Installer.TargetDownloadDir).
- Fetchers.FetchZip, Fetchers.FetchTar: the parent's folders are stated to exist afterwards only when the parent is not `./tmp_unzip.zip` or inside it, since removing the temporary file would then remove one of them. The frame on those folders leaves out `./tmp_unzip.zip` itself for the same reason.
- Installer.RunPlans: a completed run is stated to leave only the last dependency's work on disk (Installer.RunPlansLastMaterialized), not every dependency's, and a second run is not stated to be a no-op. One entry's rename can move another entry's target folder, when an archive root has the same name as that target, so the stronger statements do not hold for every manifest.
- Fetchers.Unpack, Fetchers.FetchTar, Fetchers.FetchZipTarget: the filesystem is any set of paths, not necessarily closed under parent folders, so paths below the target can exist while the target does not. The bound on what is under the target afterwards lets such paths remain.
- `build_third_party_libs` and `main`: they only call the `build` module (joining JS/CSS files and copying fonts), which is not part of this model.
- Printing, the import-time `common.require_cwd_to_be_oppia` check, and the `isinstance` assertion in `download_files` are not modelled. The model's types already guarantee the list.

=== FILE: disk.dfy ===
/** An abstract filesystem: the set of paths that exist. A path is a sequence
    of components and joining a directory with a name appends one component,
    so `a/b` is `["a", "b"]`. A directory exists when its own path is in the
    set; its contents are the paths that have it as a prefix. File contents
    are not modelled: only existence matters to the installer. */
module Disk {
  import opened Wrappers

  type Path = seq<string>
  type FileSystem = set<Path>

  /** The members of an archive, as paths relative to the directory it is
      extracted into. */
  type Archive = set<Path>

  /** `os.path.join(dir, name)`. */
  function Join(dir: Path, name: string): (p: Path)
    ensures |p| == |dir| + 1 && dir < p && p[|dir|] == name
  {
    dir + [name]
  }

  /** The path `rel` relative to `dir`. */
  function Below(dir: Path, rel: Path): (p: Path)
    ensures dir <= p && |p| == |dir| + |rel| && p[|dir|..] == rel
  {
    dir + rel
  }

  /** A member path below `dir` is its first component joined to `dir`,
      with the rest below that. */
  lemma BelowFirst(dir: Path, rel: Path)
    requires rel != []
    ensures Below(dir, rel) == Below(Join(dir, rel[0]), rel[1..])
  {
  }

  /** A path below `dir/name` is `name` followed by the rest, below `dir`. */
  lemma BelowJoin(dir: Path, name: string, rel: Path)
    ensures Below(Join(dir, name), rel) == Below(dir, [name] + rel)
  {
    BelowFirst(dir, [name] + rel);
    assert ([name] + rel)[1..] == rel;
  }

  /** The non-empty prefixes of `d`: `d` itself and every directory above it. */
  function Ancestors(d: Path): (r: set<Path>)
    ensures forall p :: p in r <==> p != [] && p <= d
  {
    var r := set i | 1 <= i <= |d| :: d[..i];
    forall p | p != [] && p <= d
      ensures p in r
    {
      assert p == d[..|p|];
    }
    r
  }

  /** `os.makedirs(d, exist_ok=True)`: `d` and every directory above it
      exist afterwards; no other path appears or disappears. */
  function MakeDirs(fs: FileSystem, d: Path): (r: FileSystem)
    ensures d != [] ==> d in r
    ensures forall p :: p in r <==> p in fs || (p != [] && p <= d)
  {
    fs + Ancestors(d)
  }

  /** The top-level names of an archive: the first component of each
      member, the folders and files `extractall` creates directly inside the
      target directory. */
  function Tops(archive: Archive): (t: set<string>)
    ensures forall m :: m in archive && m != [] ==> m[0] in t
  {
    set m | m in archive && m != [] :: m[0]
  }

  /** `rel` is a member of `archive` or a folder on the way to one. */
  predicate InArchive(archive: Archive, rel: Path) {
    exists m :: m in archive && rel <= m
  }

  /** The paths that extracting `archive` into `parent` creates: each member
      and every directory on the way to it, as `extractall` creates them. */
  function Extracted(parent: Path, archive: Archive): (r: set<Path>)
    ensures forall p :: p in r ==> parent < p && p[|parent|] in Tops(archive) && InArchive(archive, p[|parent|..])
    ensures forall m :: m in archive && m != [] ==> Below(parent, m) in r && Join(parent, m[0]) in r
  {
    var r := set m, i | m in archive && 1 <= i <= |m| :: Below(parent, m[..i]);
    forall m | m in archive && m != []
      ensures Below(parent, m) in r && Join(parent, m[0]) in r
    {
      assert m[..|m|] == m;
      assert Below(parent, m[..1]) == Join(parent, m[0]);
    }
    forall p | p in r
      ensures parent < p && p[|parent|] in Tops(archive) && InArchive(archive, p[|parent|..])
    {
      var m, i :| m in archive && 1 <= i <= |m| && p == Below(parent, m[..i]);
      assert p[|parent|] == m[0];
      assert p[|parent|..] == m[..i] <= m;
    }
    r
  }

  /** `extractall(path=parent)`: adds the archive's members under `parent`.
      Nothing outside `parent` changes, and inside it only paths under one of
      the archive's top-level names appear. */
  function Extract(fs: FileSystem, parent: Path, archive: Archive): (r: FileSystem)
    ensures fs <= r
    ensures forall m :: m in archive && m != [] ==> Below(parent, m) in r && Join(parent, m[0]) in r
    ensures forall n :: Join(parent, n) in r <==> Join(parent, n) in fs || n in Tops(archive)
    ensures forall p :: !(parent < p) ==> (p in r <==> p in fs)
    ensures forall p :: parent < p && p[|parent|] !in Tops(archive) ==> (p in r <==> p in fs)
    // Every new path is a member of the archive, or a folder on the way to one.
    ensures forall p :: p in r && p !in fs ==> parent < p && InArchive(archive, p[|parent|..])
  {
    var r := fs + Extracted(parent, archive);
    forall n | n in Tops(archive)
      ensures Join(parent, n) in r
    {
      var m :| m in archive && m != [] && m[0] == n;
    }
    r
  }

  /** `os.rename(src, dst)`: the subtree at `src` moves to `dst`. It fails
      when `src` does not exist or when `dst` already exists as another
      path. */
  function Rename(fs: FileSystem, src: Path, dst: Path): (r: Option<FileSystem>)
    ensures r.None? <==> src !in fs || (dst in fs && dst != src)
    ensures r.Some? ==> dst in r.value
    ensures r.Some? ==> forall q :: Below(src, q) in fs ==> Below(dst, q) in r.value
    ensures r.Some? ==> forall p :: !(src <= p) && !(dst <= p) ==> (p in r.value <==> p in fs)
    ensures r.Some? && src != dst && |src| == |dst| ==> src !in r.value && forall q :: Below(src, q) !in r.value
    // What is under `dst` afterwards was under `src` or already under `dst`.
    ensures r.Some? ==> forall q :: Below(dst, q) in r.value ==> Below(src, q) in fs || Below(dst, q) in fs
  {
    if src !in fs || (dst in fs && dst != src) then None
    else
      var kept := set p | p in fs && !(src <= p);
      var moved := set p | p in fs && src <= p :: dst + p[|src|..];
      assert forall q :: Below(src, q) in fs ==> Below(dst, q) in moved by {
        forall q | Below(src, q) in fs
          ensures Below(dst, q) in moved
        {
          var p := Below(src, q);
          assert p[|src|..] == q;
        }
      }
      forall q | Below(dst, q) in kept + moved
        ensures Below(src, q) in fs || Below(dst, q) in fs
      {
        var t := Below(dst, q);
        if t !in kept {
          var p :| p in fs && src <= p && t == dst + p[|src|..];
          assert q == t[|dst|..] == p[|src|..];
          assert p == Below(src, q);
        }
      }
      assert dst == Below(dst, []) && src == Below(src, []);
      Some(kept + moved)
  }
}

=== FILE: fetchers.dfy ===
/** The three fetchers (`download_files`, `download_and_unzip_files`,
    `download_and_untar_files` in scripts/install_dependencies_json_packages.py)
    as functions from a filesystem state to the state after the call, the
    network requests made, and whether the call completed or raised. */
module Fetchers {
  import opened Wrappers
  import opened Disk

  /** `TMP_UNZIP_PATH`, `./tmp_unzip.zip`: where both archive fetchers store
      the downloaded archive. */
  const TmpUnzipPath: Path := [".", "tmp_unzip.zip"]

  /** One network request, with or without the explicit user-agent header. */
  datatype Request = Request(url: string, userAgent: bool)

  /** What a URL serves, seen through extraction: the archive its bytes
      unpack to when fetched plainly and when fetched with a user-agent
      header, `None` where they do not unpack. */
  datatype Resource = Resource(plain: Option<Archive>, withUserAgent: Option<Archive>)

  /** The reachable URLs. A request for any other URL raises. */
  type Network = map<string, Resource>

  datatype FetchError =
    | Unreachable(url: string)
    | NotAnArchive(url: string)
    | RenameFailed(src: Path, dst: Path)

  datatype Status = Completed | Aborted(error: FetchError)

  /** The state a fetch leaves behind, the requests it made in order, and
      whether it completed. An aborted fetch keeps what it already wrote. */
  datatype Run = Run(fs: FileSystem, log: seq<Request>, status: Status)

  /** `'%s/%s' % (source_url_root, filename)`. */
  function FileUrl(root: string, name: string): string {
    root + "/" + name
  }

  lemma FileUrlInjective(root: string, a: string, b: string)
    requires FileUrl(root, a) == FileUrl(root, b)
    ensures a == b
  {
    assert a == FileUrl(root, a)[|root| + 1..];
    assert b == FileUrl(root, b)[|root| + 1..];
  }

  /** The paths `target_dir/filename` for every listed name. */
  function FilePaths(dir: Path, names: seq<string>): (r: set<Path>)
    ensures forall f :: f in names ==> Join(dir, f) in r
    ensures forall p :: p in r ==> dir < p && |p| == |dir| + 1 && p[|dir|] in names
  {
    set f | f in names :: Join(dir, f)
  }

  /** The loop of `download_files`: each name whose path does not exist yet
      is requested from `root/name` and written; the first unreachable URL
      raises. */
  function FetchEach(fs: FileSystem, net: Network, root: string, dir: Path, names: seq<string>): (r: Run)
    ensures fs <= r.fs <= fs + FilePaths(dir, names)
    ensures r.status.Completed? ==> r.fs == fs + FilePaths(dir, names)
    ensures r.status.Aborted? ==>
      r.log != [] && r.log[|r.log| - 1].url !in net && r.status.error == Unreachable(r.log[|r.log| - 1].url)
    decreases |names|
  {
    if names == [] then Run(fs, [], Completed)
    else
      var name := names[0];
      var path := Join(dir, name);
      FilePathsCons(dir, names);
      if path in fs then
        var rest := FetchEach(fs, net, root, dir, names[1..]);
        SkipWithin(fs, path, FilePaths(dir, names[1..]), rest.fs, rest.status.Completed?);
        rest
      else
        var request := Request(FileUrl(root, name), false);
        if request.url !in net then Run(fs, [request], Aborted(Unreachable(request.url)))
        else
          var rest := FetchEach(fs + {path}, net, root, dir, names[1..]);
          WriteWithin(fs, path, FilePaths(dir, names[1..]), rest.fs, rest.status.Completed?);
          var log := [request] + rest.log;
          assert rest.log != [] ==> log[|log| - 1] == rest.log[|rest.log| - 1];
          Run(rest.fs, log, rest.status)
  }

  /** A skipped name in set terms: the rest of the loop, started from
      `fs`, stays within the bounds of the whole loop. */
  lemma SkipWithin(fs: FileSystem, path: Path, later: set<Path>, after: FileSystem, completed: bool)
    requires path in fs
    requires fs <= after <= fs + later
    requires completed ==> after == fs + later
    ensures fs <= after <= fs + ({path} + later)
    ensures completed ==> after == fs + ({path} + later)
  {
  }

  /** A written name in set terms: the rest of the loop, started from
      `fs + {path}`, stays within the bounds of the whole loop. */
  lemma WriteWithin(fs: FileSystem, path: Path, later: set<Path>, after: FileSystem, completed: bool)
    requires fs + {path} <= after <= fs + {path} + later
    requires completed ==> after == fs + {path} + later
    ensures fs <= after <= fs + ({path} + later)
    ensures completed ==> after == fs + ({path} + later)
  {
  }

  lemma FilePathsCons(dir: Path, names: seq<string>)
    requires names != []
    ensures FilePaths(dir, names) == {Join(dir, names[0])} + FilePaths(dir, names[1..])
  {
  }

  /** Every request of the `download_files` loop is for a listed file that
      did not exist. */
  lemma {:induction false} FetchEachOnlyMissing(fs: FileSystem, net: Network, root: string, dir: Path, names: seq<string>)
    ensures forall q :: q in FetchEach(fs, net, root, dir, names).log ==>
      exists f :: f in names && Join(dir, f) !in fs && q == Request(FileUrl(root, f), false)
    decreases |names|
  {
    if names != [] {
      var name := names[0];
      var tail := names[1..];
      var path := Join(dir, name);
      assert names == [name] + tail;
      if path in fs {
        FetchEachOnlyMissing(fs, net, root, dir, tail);
      } else {
        assert name in names && path !in fs;
        if FileUrl(root, name) in net {
          FetchEachOnlyMissing(fs + {path}, net, root, dir, tail);
        }
      }
    }
  }

  /** A completed `download_files` loop has requested every listed file
      that did not exist. */
  lemma {:induction false} FetchEachAllMissing(fs: FileSystem, net: Network, root: string, dir: Path, names: seq<string>)
    ensures FetchEach(fs, net, root, dir, names).status.Completed? ==>
      forall f :: f in names && Join(dir, f) !in fs ==> Request(FileUrl(root, f), false) in FetchEach(fs, net, root, dir, names).log
    decreases |names|
  {
    if names != [] {
      var name := names[0];
      var tail := names[1..];
      var path := Join(dir, name);
      assert names == [name] + tail;
      if path in fs {
        FetchEachAllMissing(fs, net, root, dir, tail);
      } else if FileUrl(root, name) in net {
        FetchEachAllMissing(fs + {path}, net, root, dir, tail);
      }
    }
  }

  /** The `download_files` loop completes exactly when every listed file
      that is missing can be fetched. */
  lemma {:induction false} FetchEachCompletes(fs: FileSystem, net: Network, root: string, dir: Path, names: seq<string>)
    ensures FetchEach(fs, net, root, dir, names).status.Completed? <==>
      forall f :: f in names && Join(dir, f) !in fs ==> FileUrl(root, f) in net
    decreases |names|
  {
    if names != [] {
      var name := names[0];
      var tail := names[1..];
      var path := Join(dir, name);
      assert names == [name] + tail;
      if path in fs {
        FetchEachCompletes(fs, net, root, dir, tail);
      } else if FileUrl(root, name) in net {
        FetchEachCompletes(fs + {path}, net, root, dir, tail);
        forall f | f in tail && Join(dir, f) == path
          ensures f == name
        {
          assert Join(dir, f)[|dir|] == f;
        }
      } else {
        assert name in names && path !in fs;
      }
    }
  }

  /** The `download_files` loop never requests the same file twice, even
      when a name is listed twice. */
  lemma {:induction false} FetchEachNoRepeats(fs: FileSystem, net: Network, root: string, dir: Path, names: seq<string>)
    ensures forall i, j :: 0 <= i < j < |FetchEach(fs, net, root, dir, names).log| ==>
      FetchEach(fs, net, root, dir, names).log[i] != FetchEach(fs, net, root, dir, names).log[j]
    decreases |names|
  {
    if names != [] {
      var name := names[0];
      var tail := names[1..];
      var path := Join(dir, name);
      assert names == [name] + tail;
      if path in fs {
        FetchEachNoRepeats(fs, net, root, dir, tail);
      } else {
        var request := Request(FileUrl(root, name), false);
        if request.url in net {
          FetchEachNoRepeats(fs + {path}, net, root, dir, tail);
          FetchEachOnlyMissing(fs + {path}, net, root, dir, tail);
          var rest := FetchEach(fs + {path}, net, root, dir, tail);
          var log := [request] + rest.log;
          assert FetchEach(fs, net, root, dir, names).log == log;
          forall q | q in rest.log
            ensures q != request
          {
            var f :| f in tail && Join(dir, f) !in fs + {path} && q == Request(FileUrl(root, f), false);
            if q == request {
              FileUrlInjective(root, f, name);
            }
          }
          DistinctCons(request, rest.log);
        }
      }
    }
  }

  /** Putting a new element in front of a list without repeats keeps it
      without repeats. */
  lemma DistinctCons<T>(x: T, s: seq<T>)
    requires x !in s
    requires forall i, j :: 0 <= i < j < |s| ==> s[i] != s[j]
    ensures forall i, j :: 0 <= i < j < |[x] + s| ==> ([x] + s)[i] != ([x] + s)[j]
  {
  }

  /** `download_files`: makes sure `dir` exists, then fetches exactly the
      listed files that are missing, each once, and touches nothing else. */
  function FetchFiles(fs: FileSystem, net: Network, root: string, dir: Path, names: seq<string>): (r: Run)
    // Nothing is deleted, and only the directory and the listed files are added, whatever the outcome.
    ensures MakeDirs(fs, dir) <= r.fs <= MakeDirs(fs, dir) + FilePaths(dir, names)
    ensures r.status.Completed? ==> r.fs == MakeDirs(fs, dir) + FilePaths(dir, names)
    ensures r.status.Aborted? ==>
      r.log != [] && r.log[|r.log| - 1].url !in net && r.status.error == Unreachable(r.log[|r.log| - 1].url)
    ensures forall q :: q in r.log ==>
      exists f :: f in names && Join(dir, f) !in fs && q == Request(FileUrl(root, f), false)
    ensures r.status.Completed? ==>
      forall f :: f in names && Join(dir, f) !in fs ==> Request(FileUrl(root, f), false) in r.log
    ensures forall i, j :: 0 <= i < j < |r.log| ==> r.log[i] != r.log[j]
    ensures (forall f :: f in names ==> Join(dir, f) in fs) ==> r.log == [] && r.status.Completed?
    ensures forall p :: !(dir <= p) && !(p <= dir) ==> (p in r.fs <==> p in fs)
  {
    var made := MakeDirs(fs, dir);
    FetchFilesRequests(fs, net, root, dir, names);
    FetchFilesBounds(fs, net, root, dir, names);
    FetchEachNoRepeats(made, net, root, dir, names);
    FetchEach(made, net, root, dir, names)
  }

  /** The loop of `download_files`, started after `ensure_directory_exists`,
      adds only listed files below `dir`, and touches nothing unrelated to
      `dir`. */
  lemma FetchFilesBounds(fs: FileSystem, net: Network, root: string, dir: Path, names: seq<string>)
    ensures var r := FetchEach(MakeDirs(fs, dir), net, root, dir, names);
      && MakeDirs(fs, dir) <= r.fs <= MakeDirs(fs, dir) + FilePaths(dir, names)
      && forall p :: !(dir <= p) && !(p <= dir) ==> (p in r.fs <==> p in fs)
  {
  }

  /** The loop of `download_files`, started after `ensure_directory_exists`,
      requests exactly the listed files that were missing before that call,
      since creating the directory creates none of them. */
  lemma FetchFilesRequests(fs: FileSystem, net: Network, root: string, dir: Path, names: seq<string>)
    ensures var r := FetchEach(MakeDirs(fs, dir), net, root, dir, names);
      && (forall q :: q in r.log ==> exists f :: f in names && Join(dir, f) !in fs && q == Request(FileUrl(root, f), false))
      && (r.status.Completed? ==> forall f :: f in names && Join(dir, f) !in fs ==> Request(FileUrl(root, f), false) in r.log)
      && ((forall f :: f in names ==> Join(dir, f) in fs) ==> r.log == [] && r.status.Completed?)
  {
    var made := MakeDirs(fs, dir);
    assert forall f :: Join(dir, f) in made <==> Join(dir, f) in fs;
    FetchEachOnlyMissing(made, net, root, dir, names);
    FetchEachAllMissing(made, net, root, dir, names);
    var r := FetchEach(made, net, root, dir, names);
    assert r.log != [] ==> r.log[0] in r.log;
  }

  /** A download of `download_files` raises only at an unreachable URL:
      the call completes exactly when every missing listed file can be
      fetched. */
  lemma FetchFilesCompletes(fs: FileSystem, net: Network, root: string, dir: Path, names: seq<string>)
    ensures FetchFiles(fs, net, root, dir, names).status.Completed? <==>
      forall f :: f in names && Join(dir, f) !in fs ==> FileUrl(root, f) in net
  {
    var made := MakeDirs(fs, dir);
    assert forall f :: Join(dir, f) in made <==> Join(dir, f) in fs;
    FetchEachCompletes(made, net, root, dir, names);
  }

  /** `p` lies inside `parent`, but not under any of the entries `names` of
      `parent`. */
  predicate UnderOther(parent: Path, names: set<string>, p: Path) {
    parent < p && p[|parent|] !in names
  }

  /** Everything under `parent/targetName` in `after` was already under
      `parent/targetName` or `parent/rootName` in `before`, or is a member of
      the archive's root folder `rootName` (or a folder on the way to one). */
  ghost predicate TargetHoldsOnly(before: FileSystem, after: FileSystem, parent: Path, a: Archive, rootName: string, targetName: string) {
    forall q :: Below(Join(parent, targetName), q) in after ==>
      || Below(Join(parent, targetName), q) in before
      || Below(Join(parent, rootName), q) in before
      || InArchive(a, [rootName] + q)
  }

  /** `extractall(path=parent)`, followed by `os.remove(TMP_UNZIP_PATH)`
      when `removeTmp` holds. */
  function ExtractInto(fs: FileSystem, parent: Path, a: Archive, removeTmp: bool): (r: FileSystem)
    ensures !(parent <= TmpUnzipPath) ==> forall m :: m in a && m != [] ==> Below(parent, m) in r && Join(parent, m[0]) in r
    ensures !(parent <= TmpUnzipPath) ==> (TmpUnzipPath in r <==> TmpUnzipPath in fs && !removeTmp)
    ensures !(parent <= TmpUnzipPath) ==> forall n :: Join(parent, n) in r <==> Join(parent, n) in fs || n in Tops(a)
    ensures forall p :: !(parent < p) && p != TmpUnzipPath ==> (p in r <==> p in fs)
    ensures forall p :: UnderOther(parent, Tops(a), p) && p != TmpUnzipPath ==> (p in r <==> p in fs)
    ensures forall p :: p in r && p !in fs ==> parent < p && InArchive(a, p[|parent|..])
  {
    var extracted := Extract(fs, parent, a);
    if removeTmp then extracted - {TmpUnzipPath} else extracted
  }

  /** `os.rename(parent/rootName, parent/targetName)`: the last step of both
      archive fetchers. */
  function RenameRoot(fs: FileSystem, log: seq<Request>, parent: Path, rootName: string, targetName: string): (r: Run)
    ensures r.log == log
    ensures r.status.Completed? <==>
      Join(parent, rootName) in fs && (Join(parent, targetName) in fs ==> rootName == targetName)
    ensures r.status.Aborted? ==> r.fs == fs && r.status.error == RenameFailed(Join(parent, rootName), Join(parent, targetName))
    ensures r.status.Completed? ==> Join(parent, targetName) in r.fs
    ensures r.status.Completed? && rootName != targetName ==> Join(parent, rootName) !in r.fs
    // The whole subtree leaves the root name.
    ensures r.status.Completed? && rootName != targetName ==> forall q :: Below(Join(parent, rootName), q) !in r.fs
    ensures r.status.Completed? ==>
      forall q :: Below(Join(parent, rootName), q) in fs ==> Below(Join(parent, targetName), q) in r.fs
    ensures r.status.Completed? ==>
      forall q :: Below(Join(parent, targetName), q) in r.fs ==>
        Below(Join(parent, rootName), q) in fs || Below(Join(parent, targetName), q) in fs
    ensures forall p :: !(parent < p) ==> (p in r.fs <==> p in fs)
    ensures forall p :: UnderOther(parent, {rootName, targetName}, p) ==> (p in r.fs <==> p in fs)
  {
    var src := Join(parent, rootName);
    var dst := Join(parent, targetName);
    RenameStaysBelow(fs, parent, rootName, targetName);
    match Rename(fs, src, dst)
    case None => Run(fs, log, Aborted(RenameFailed(src, dst)))
    case Some(renamed) => Run(renamed, log, Completed)
  }

  /** What both archive fetchers do once the archive is at hand: extract it
      into `parent`, drop the temporary download when `removeTmp` holds,
      and rename the extracted root folder `parent/rootName` to
      `parent/targetName`. Raises when the rename does. */
  function Unpack(fs: FileSystem, log: seq<Request>, parent: Path, a: Archive, removeTmp: bool, rootName: string, targetName: string): (r: Run)
    ensures r.log == log
    ensures r.status.Completed? <==>
      && Join(parent, rootName) in ExtractInto(fs, parent, a, removeTmp)
      && (Join(parent, targetName) in ExtractInto(fs, parent, a, removeTmp) ==> rootName == targetName)
    ensures r.status.Aborted? ==> r.status.error == RenameFailed(Join(parent, rootName), Join(parent, targetName))
    ensures r.status.Completed? ==> Join(parent, targetName) in r.fs
    ensures r.status.Completed? && rootName != targetName ==> Join(parent, rootName) !in r.fs
    ensures r.status.Completed? && rootName != targetName ==> forall q :: Below(Join(parent, rootName), q) !in r.fs
    ensures r.status.Completed? && !(parent <= TmpUnzipPath) ==>
      forall m :: m in a && m != [] && m[0] == rootName ==> Below(Join(parent, targetName), m[1..]) in r.fs
    ensures r.status.Completed? && !(parent <= TmpUnzipPath) ==> TargetHoldsOnly(fs, r.fs, parent, a, rootName, targetName)
    ensures !(parent <= TmpUnzipPath) ==> (TmpUnzipPath in r.fs <==> TmpUnzipPath in fs && !removeTmp)
    ensures forall p :: !(parent < p) && p != TmpUnzipPath ==> (p in r.fs <==> p in fs)
    ensures forall p :: UnderOther(parent, Tops(a) + {rootName, targetName}, p) && p != TmpUnzipPath ==> (p in r.fs <==> p in fs)
  {
    var unpacked := ExtractInto(fs, parent, a, removeTmp);
    var r := RenameRoot(unpacked, log, parent, rootName, targetName);
    if r.status.Completed? && !(parent <= TmpUnzipPath) then
      forall m | m in a && m != [] && m[0] == rootName
        ensures Below(Join(parent, targetName), m[1..]) in r.fs
      {
        BelowFirst(parent, m);
      }
      TargetHoldsOnlyAfterRename(fs, unpacked, r.fs, parent, a, rootName, targetName);
      r
    else r
  }

  /** After extracting `a` into `parent` and renaming the root folder, the
      target holds only what the root folder held: what an earlier root or
      target folder held, or the archive's root folder. The extraction did
      not create the target under another name, since the rename then fails. */
  lemma TargetHoldsOnlyAfterRename(fs: FileSystem, unpacked: FileSystem, after: FileSystem, parent: Path, a: Archive,
                                   rootName: string, targetName: string)
    requires forall p :: p in unpacked && p !in fs ==> parent < p && InArchive(a, p[|parent|..])
    requires forall m :: m in a && m != [] ==> Join(parent, m[0]) in unpacked
    requires Join(parent, targetName) in unpacked ==> rootName == targetName
    requires forall q :: Below(Join(parent, targetName), q) in after ==>
      Below(Join(parent, rootName), q) in unpacked || Below(Join(parent, targetName), q) in unpacked
    ensures TargetHoldsOnly(fs, after, parent, a, rootName, targetName)
  {
    forall q | Below(Join(parent, targetName), q) in after
      ensures || Below(Join(parent, targetName), q) in fs
              || Below(Join(parent, rootName), q) in fs
              || InArchive(a, [rootName] + q)
    {
      BelowJoin(parent, rootName, q);
      BelowJoin(parent, targetName, q);
      var t := Below(Join(parent, targetName), q);
      if t in unpacked && t !in fs {
        var m :| m in a && [targetName] + q <= m;
        assert m != [] && m[0] == targetName;
      }
    }
  }

  /** The bound carries back over steps that change nothing below `parent`,
      such as creating `parent` and writing the temporary archive beside it. */
  lemma TargetHoldsOnlyBefore(fs: FileSystem, mid: FileSystem, after: FileSystem, parent: Path, a: Archive,
                              rootName: string, targetName: string)
    ensures (forall p :: parent < p ==> (p in mid <==> p in fs)) && TargetHoldsOnly(mid, after, parent, a, rootName, targetName) ==>
      TargetHoldsOnly(fs, after, parent, a, rootName, targetName)
  {
    forall q, n ensures parent < Below(Join(parent, n), q) {
      assert Below(Join(parent, n), q)[..|parent|] == parent;
    }
  }

  /** Renaming one child of `parent` to another changes nothing outside
      `parent`, nor inside it under any other child. */
  lemma RenameStaysBelow(fs: FileSystem, parent: Path, rootName: string, targetName: string)
    ensures Rename(fs, Join(parent, rootName), Join(parent, targetName)).Some? ==>
      forall p :: !(parent < p) ==> (p in Rename(fs, Join(parent, rootName), Join(parent, targetName)).value <==> p in fs)
    ensures Rename(fs, Join(parent, rootName), Join(parent, targetName)).Some? ==>
      forall p :: UnderOther(parent, {rootName, targetName}, p) ==>
        (p in Rename(fs, Join(parent, rootName), Join(parent, targetName)).value <==> p in fs)
  {
    forall p, n | Join(parent, n) <= p
      ensures parent < p && p[|parent|] == n
    {
      assert p[|parent|] == Join(parent, n)[|parent|];
    }
  }

  /** The archive the zip fetcher ends up extracting: the plain download, or
      the user-agent download when the plain one does not unpack. */
  function ZipContents(res: Resource): Option<Archive> {
    if res.plain.Some? then res.plain else res.withUserAgent
  }

  /** The archive a zip download of `url` unpacks to, if any. */
  function ZipArchive(net: Network, url: string): Option<Archive> {
    if url in net then ZipContents(net[url]) else None
  }

  /** The archive a tar download of `url` unpacks to, if any. */
  function TarArchive(net: Network, url: string): Option<Archive> {
    if url in net then net[url].plain else None
  }

  /** The top-level names of an archive that may be absent. */
  function TopsOf(a: Option<Archive>): set<string> {
    match a
    case None => {}
    case Some(archive) => Tops(archive)
  }

  /** What a rename of `parent/rootName` to `parent/targetName` needs after
      extracting `a` into `parent`, when `parent/targetName` did not exist
      before: the root folder exists, and the archive does not itself create
      a different target. */
  predicate RenameWorks(fs: FileSystem, parent: Path, a: Archive, rootName: string, targetName: string) {
    && (Join(parent, rootName) in fs || rootName in Tops(a))
    && (targetName in Tops(a) ==> rootName == targetName)
  }

  /** `download_and_unzip_files`. */
  function FetchZip(fs: FileSystem, net: Network, url: string, parent: Path, rootName: string, targetName: string): (r: Run)
    // Skip when the target already exists: no request, no change.
    ensures Join(parent, targetName) in fs ==> r == Run(fs, [], Completed)
    // One plain request, and the user-agent retry only when the plain archive does not unpack.
    ensures Join(parent, targetName) !in fs ==>
      r.log == if url in net && net[url].plain.None? then [Request(url, false), Request(url, true)] else [Request(url, false)]
    ensures r.status.Completed? ==> Join(parent, targetName) in r.fs
    // The archive's root folder now sits under the target name.
    ensures r.status.Completed? && Join(parent, targetName) !in fs && !(parent <= TmpUnzipPath) ==>
      && url in net && ZipContents(net[url]).Some?
      && forall m :: m in ZipContents(net[url]).value && m != [] && m[0] == rootName ==>
           Below(Join(parent, targetName), m[1..]) in r.fs
    ensures r.status.Completed? && Join(parent, targetName) !in fs && rootName != targetName ==>
      Join(parent, rootName) !in r.fs && forall q :: Below(Join(parent, rootName), q) !in r.fs
    // The user-agent retry happens exactly when the plain archive does not unpack.
    ensures Join(parent, targetName) !in fs && url in net ==>
      (Request(url, true) in r.log <==> net[url].plain.None?)
    ensures r.status == Aborted(NotAnArchive(url)) ==> r.log == [Request(url, false), Request(url, true)]
    // The temporary archive is gone afterwards, whether extraction worked or not.
    ensures Join(parent, targetName) !in fs && url in net && !(parent <= TmpUnzipPath) ==> TmpUnzipPath !in r.fs
    ensures forall q :: q in r.log ==> q.url == url
    ensures forall p :: !(parent <= p) && !(p <= parent) && p != TmpUnzipPath ==> (p in r.fs <==> p in fs)
    // The parent and the folders above it are only ever created.
    ensures forall p :: p <= parent && p != TmpUnzipPath ==>
      (p in r.fs <==> p in fs || (p != [] && Join(parent, targetName) !in fs))
    ensures Join(parent, targetName) !in fs && !(TmpUnzipPath <= parent) ==> Ancestors(parent) <= r.fs
  {
    var target := Join(parent, targetName);
    if target in fs then Run(fs, [], Completed)
    else
      var made := MakeDirs(fs, parent);
      if url !in net then Run(made, [Request(url, false)], Aborted(Unreachable(url)))
      else
        var downloaded := made + {TmpUnzipPath};
        match net[url].plain
        case Some(a) => Unpack(downloaded, [Request(url, false)], parent, a, true, rootName, targetName)
        case None =>
          var cleaned := downloaded - {TmpUnzipPath};
          var log := [Request(url, false), Request(url, true)];
          match net[url].withUserAgent
          case None => Run(cleaned, log, Aborted(NotAnArchive(url)))
          case Some(a) => Unpack(cleaned, log, parent, a, false, rootName, targetName)
  }

  /** `download_and_untar_files`: the same shape without the user-agent
      retry; an archive that does not unpack raises and leaves the temporary
      file behind. */
  function FetchTar(fs: FileSystem, net: Network, url: string, parent: Path, rootName: string, targetName: string): (r: Run)
    ensures Join(parent, targetName) in fs ==> r == Run(fs, [], Completed)
    ensures Join(parent, targetName) !in fs ==> r.log == [Request(url, false)]
    ensures r.status.Completed? ==> Join(parent, targetName) in r.fs
    ensures r.status.Completed? && Join(parent, targetName) !in fs && !(parent <= TmpUnzipPath) ==>
      && url in net && net[url].plain.Some?
      && (forall m :: m in net[url].plain.value && m != [] && m[0] == rootName ==>
           Below(Join(parent, targetName), m[1..]) in r.fs)
      && TargetHoldsOnly(fs, r.fs, parent, net[url].plain.value, rootName, targetName)
    ensures r.status.Completed? && Join(parent, targetName) !in fs && rootName != targetName ==>
      Join(parent, rootName) !in r.fs && forall q :: Below(Join(parent, rootName), q) !in r.fs
    ensures r.status.Completed? && !(parent <= TmpUnzipPath) && Join(parent, targetName) !in fs ==> TmpUnzipPath !in r.fs
    ensures r.status == Aborted(NotAnArchive(url)) ==> TmpUnzipPath in r.fs
    ensures forall q :: q in r.log ==> q.url == url
    ensures forall p :: !(parent <= p) && !(p <= parent) && p != TmpUnzipPath ==> (p in r.fs <==> p in fs)
    // The parent and the folders above it are only ever created.
    ensures forall p :: p <= parent && p != TmpUnzipPath ==>
      (p in r.fs <==> p in fs || (p != [] && Join(parent, targetName) !in fs))
    ensures Join(parent, targetName) !in fs && !(TmpUnzipPath <= parent) ==> Ancestors(parent) <= r.fs
  {
    var target := Join(parent, targetName);
    if target in fs then Run(fs, [], Completed)
    else
      var made := MakeDirs(fs, parent);
      if url !in net then Run(made, [Request(url, false)], Aborted(Unreachable(url)))
      else
        var downloaded := made + {TmpUnzipPath};
        match net[url].plain
        case None => Run(downloaded, [Request(url, false)], Aborted(NotAnArchive(url)))
        case Some(a) =>
          var r := Unpack(downloaded, [Request(url, false)], parent, a, true, rootName, targetName);
          TargetHoldsOnlyBefore(fs, downloaded, r.fs, parent, a, rootName, targetName);
          r
  }

  /** When the target is missing, the zip fetcher completes exactly when
      the URL serves an archive (plainly or on the user-agent retry) and the
      rename can happen; each way of raising has its own cause. */
  lemma FetchZipOutcome(fs: FileSystem, net: Network, url: string, parent: Path, rootName: string, targetName: string)
    requires Join(parent, targetName) !in fs && !(parent <= TmpUnzipPath)
    ensures var r := FetchZip(fs, net, url, parent, rootName, targetName);
      && (r.status.Completed? <==>
           ZipArchive(net, url).Some? && RenameWorks(fs, parent, ZipArchive(net, url).value, rootName, targetName))
      && (r.status == Aborted(Unreachable(url)) <==> url !in net)
      && (r.status == Aborted(NotAnArchive(url)) <==> url in net && ZipArchive(net, url).None?)
      && (r.status.Aborted? ==>
           r.status.error in {Unreachable(url), NotAnArchive(url), RenameFailed(Join(parent, rootName), Join(parent, targetName))})
  {
    var made := MakeDirs(fs, parent);
    assert forall n :: Join(parent, n) in made + {TmpUnzipPath} <==> Join(parent, n) in fs;
    assert forall n :: Join(parent, n) in made + {TmpUnzipPath} - {TmpUnzipPath} <==> Join(parent, n) in fs;
  }

  /** The zip fetcher changes nothing inside `parent` except under the root
      name, the target name and the archive's own top-level names. */
  lemma FetchZipFrame(fs: FileSystem, net: Network, url: string, parent: Path, rootName: string, targetName: string)
    ensures forall p :: UnderOther(parent, {rootName, targetName} + TopsOf(ZipArchive(net, url)), p) && p != TmpUnzipPath ==>
      (p in FetchZip(fs, net, url, parent, rootName, targetName).fs <==> p in fs)
  {
    var r := FetchZip(fs, net, url, parent, rootName, targetName);
    if Join(parent, targetName) !in fs && url in net {
      var made := MakeDirs(fs, parent);
      assert forall p :: parent < p ==> (p in made <==> p in fs);
      var downloaded := made + {TmpUnzipPath};
      if net[url].plain.Some? {
        assert r == Unpack(downloaded, [Request(url, false)], parent, net[url].plain.value, true, rootName, targetName);
      } else if net[url].withUserAgent.Some? {
        assert r == Unpack(downloaded - {TmpUnzipPath}, [Request(url, false), Request(url, true)], parent,
                           net[url].withUserAgent.value, false, rootName, targetName);
      }
    }
  }

  /** On completion with the target missing before, the zip fetcher's
      target holds only what the archive's root folder holds, besides what
      an earlier root or target folder held. */
  lemma FetchZipTarget(fs: FileSystem, net: Network, url: string, parent: Path, rootName: string, targetName: string)
    ensures var r := FetchZip(fs, net, url, parent, rootName, targetName);
      r.status.Completed? && Join(parent, targetName) !in fs && !(parent <= TmpUnzipPath) ==>
        url in net && ZipContents(net[url]).Some? && TargetHoldsOnly(fs, r.fs, parent, ZipContents(net[url]).value, rootName, targetName)
  {
    var r := FetchZip(fs, net, url, parent, rootName, targetName);
    if Join(parent, targetName) !in fs && url in net && !(parent <= TmpUnzipPath) {
      var made := MakeDirs(fs, parent);
      var downloaded := made + {TmpUnzipPath};
      assert forall p :: parent < p ==> (p in downloaded <==> p in fs);
      if net[url].plain.Some? {
        var a := net[url].plain.value;
        assert r == Unpack(downloaded, [Request(url, false)], parent, a, true, rootName, targetName);
        TargetHoldsOnlyBefore(fs, downloaded, r.fs, parent, a, rootName, targetName);
      } else if net[url].withUserAgent.Some? {
        var a := net[url].withUserAgent.value;
        var cleaned := downloaded - {TmpUnzipPath};
        assert forall p :: parent < p ==> (p in cleaned <==> p in fs);
        assert r == Unpack(cleaned, [Request(url, false), Request(url, true)], parent, a, false, rootName, targetName);
        TargetHoldsOnlyBefore(fs, cleaned, r.fs, parent, a, rootName, targetName);
      }
    }
  }

  /** When the target is missing, the tar fetcher completes exactly when
      the URL serves an archive and the rename can happen. */
  lemma FetchTarOutcome(fs: FileSystem, net: Network, url: string, parent: Path, rootName: string, targetName: string)
    requires Join(parent, targetName) !in fs && !(parent <= TmpUnzipPath)
    ensures var r := FetchTar(fs, net, url, parent, rootName, targetName);
      && (r.status.Completed? <==>
           TarArchive(net, url).Some? && RenameWorks(fs, parent, TarArchive(net, url).value, rootName, targetName))
      && (r.status == Aborted(Unreachable(url)) <==> url !in net)
      && (r.status == Aborted(NotAnArchive(url)) <==> url in net && TarArchive(net, url).None?)
      && (r.status.Aborted? ==>
           r.status.error in {Unreachable(url), NotAnArchive(url), RenameFailed(Join(parent, rootName), Join(parent, targetName))})
  {
    var made := MakeDirs(fs, parent);
    assert forall n :: Join(parent, n) in made + {TmpUnzipPath} <==> Join(parent, n) in fs;
  }

  /** The tar fetcher changes nothing inside `parent` except under the root
      name, the target name and the archive's own top-level names. */
  lemma FetchTarFrame(fs: FileSystem, net: Network, url: string, parent: Path, rootName: string, targetName: string)
    ensures forall p :: UnderOther(parent, {rootName, targetName} + TopsOf(TarArchive(net, url)), p) && p != TmpUnzipPath ==>
      (p in FetchTar(fs, net, url, parent, rootName, targetName).fs <==> p in fs)
  {
    var made := MakeDirs(fs, parent);
    assert forall p :: parent < p ==> (p in made <==> p in fs);
  }
}

=== FILE: installer.dfy ===
/** `validate_dependencies` and `download_all_dependencies` in
    scripts/install_dependencies_json_packages.py: check the whole manifest,
    then resolve each entry's names and hand it to the fetcher its format
    selects. */
module Installer {
  import opened Wrappers
  import opened Disk
  import opened Schema
  import opened Fetchers

  /** The manifest's categories, each installed under its own directory. */
  datatype Category = Proto | Frontend | OppiaTools

  /** `TARGET_DOWNLOAD_DIRS`. */
  function TargetDownloadDir(c: Category): (d: Path)
    ensures d != [] && !(d <= TmpUnzipPath)
  {
    assert TmpUnzipPath[1] == "tmp_unzip.zip";
    match c
    case Proto => assert "third_party"[1] != "tmp_unzip.zip"[1]; [".", "third_party"]
    case Frontend => assert "third_party"[1] != "tmp_unzip.zip"[1]; [".", "third_party", "static"]
    case OppiaTools => assert ".." != "."; ["..", "oppia_tools"]
  }

  /** One dependency of the manifest: its category, its name within the
      category, and its entry. */
  datatype Dependency = Dependency(category: Category, name: string, entry: Entry)

  /** The manifest in iteration order: category by category, and within a
      category in the order its dependencies are declared. */
  type Manifest = seq<Dependency>

  /** Why a manifest is refused before anything is downloaded. */
  datatype ManifestError =
    | FormatNotSpecified(dependency: string)
    | UnknownFormat(dependency: string, tag: string)
    | SyntaxError(dependency: string, verdict: Verdict)

  /** An entry the installer accepts: a known format that the entry
      satisfies in full. */
  predicate Valid(e: Entry) {
    && e.downloadFormat.Some?
    && ParseFormat(e.downloadFormat.value).Some?
    && WellFormed(ParseFormat(e.downloadFormat.value).value, e)
  }

  /** The body of the `validate_dependencies` loop for one dependency: a
      missing `downloadFormat` raises, an unknown one fails the table
      lookup, anything else goes through `test_dependencies_syntax`. */
  function Diagnose(d: Dependency): (r: Option<ManifestError>)
    ensures r.None? <==> Valid(d.entry)
    ensures d.entry.downloadFormat.None? ==> r == Some(FormatNotSpecified(d.name))
    ensures d.entry.downloadFormat.Some? && ParseFormat(d.entry.downloadFormat.value).None? ==>
      r == Some(UnknownFormat(d.name, d.entry.downloadFormat.value))
    ensures d.entry.downloadFormat.Some? && ParseFormat(d.entry.downloadFormat.value).Some? && !Valid(d.entry) ==>
      r.Some? && r.value.SyntaxError? && r.value.dependency == d.name
    ensures r.Some? && r.value.SyntaxError? ==>
      && d.entry.downloadFormat.Some? && ParseFormat(d.entry.downloadFormat.value).Some?
      && r.value.verdict == CheckEntry(ParseFormat(d.entry.downloadFormat.value).value, d.entry)
  {
    match d.entry.downloadFormat
    case None => Some(FormatNotSpecified(d.name))
    case Some(tag) =>
      match ParseFormat(tag)
      case None => Some(UnknownFormat(d.name, tag))
      case Some(f) =>
        var v := CheckEntry(f, d.entry);
        if v.Ok? then None else Some(SyntaxError(d.name, v))
  }

  /** The position of the first dependency at or after `from` that
      `Diagnose` refuses, or `|m|`. */
  function FirstInvalid(m: Manifest, from: nat): (i: nat)
    requires from <= |m|
    ensures from <= i <= |m|
    ensures forall j :: from <= j < i ==> Valid(m[j].entry)
    ensures i < |m| ==> !Valid(m[i].entry)
    decreases |m| - from
  {
    if from == |m| || !Valid(m[from].entry) then from
    else FirstInvalid(m, from + 1)
  }

  /** `validate_dependencies`: the error of the first dependency that fails,
      in manifest order, or `None` when every dependency passes. */
  function ValidateManifest(m: Manifest): (r: Option<ManifestError>)
    ensures r.None? <==> forall i :: 0 <= i < |m| ==> Valid(m[i].entry)
    ensures r.Some? ==>
      exists i :: 0 <= i < |m| && Diagnose(m[i]) == r && forall j :: 0 <= j < i ==> Valid(m[j].entry)
  {
    var i := FirstInvalid(m, 0);
    if i < |m| then Diagnose(m[i]) else None
  }

  /** The format a valid entry declares. */
  function FormatOf(e: Entry): Format
    requires Valid(e)
  {
    ParseFormat(e.downloadFormat.value).value
  }

  /** A valid entry carries every value name resolution reads: the version
      and URL, the prefixes its format uses, and for zip exactly one of
      each explicit-name/prefix pair. */
  lemma ValidHasNames(e: Entry)
    requires Valid(e)
    ensures e.version.Some? && e.url.Some?
    ensures FormatOf(e) == Files ==> e.files.Some? && e.targetDirPrefix.Some?
    ensures FormatOf(e) == Tar ==> e.tarRootDirPrefix.Some? && e.targetDirPrefix.Some?
    ensures FormatOf(e) == Zip ==>
      e.rootDir.Some? != e.rootDirPrefix.Some? && e.targetDir.Some? != e.targetDirPrefix.Some?
  {
    var f := FormatOf(e);
    assert Version in MandatoryKeys(f) && Url in MandatoryKeys(f);
    if f == Zip {
      assert ExactlyOne(e, (RootDir, RootDirPrefix)) && ExactlyOne(e, (TargetDir, TargetDirPrefix));
    }
  }

  /** A fetcher call, with the arguments `download_all_dependencies`
      computes for it. */
  datatype Job =
    | FileJob(root: string, dir: Path, names: seq<string>)
    | ZipJob(url: string, parent: Path, rootName: string, targetName: string)
    | TarJob(url: string, parent: Path, rootName: string, targetName: string)

  /** Name resolution and dispatch for one dependency of a validated
      manifest; what it computes is stated by `PlanResolvesNames`. */
  function Plan(d: Dependency): (j: Job)
    requires Valid(d.entry)
  {
    var e := d.entry;
    ValidHasNames(e);
    match FormatOf(e)
    case Files =>
      FileJob(e.url.value, Join(TargetDownloadDir(d.category), e.targetDirPrefix.value + e.version.value), e.files.value)
    case Zip =>
      var rootName := if e.rootDir.Some? then e.rootDir.value else e.rootDirPrefix.value + e.version.value;
      var targetName := if e.targetDir.Some? then e.targetDir.value else e.targetDirPrefix.value + e.version.value;
      ZipJob(e.url.value, TargetDownloadDir(d.category), rootName, targetName)
    case Tar =>
      TarJob(e.url.value, TargetDownloadDir(d.category), e.tarRootDirPrefix.value + e.version.value,
             e.targetDirPrefix.value + e.version.value)
  }

  /** The job of a dependency: the fetcher matches the declared format. A
      zip entry names its archive root and its target either outright
      (`rootDir`, `targetDir`) or as a prefix to which the version is
      appended, and validation guarantees exactly one of each is there. Tar
      and file-list entries always use prefix plus version. */
  lemma PlanResolvesNames(d: Dependency, j: Job)
    requires Valid(d.entry) && j == Plan(d)
    ensures j.FileJob? <==> FormatOf(d.entry) == Files
    ensures j.ZipJob? <==> FormatOf(d.entry) == Zip
    ensures j.TarJob? <==> FormatOf(d.entry) == Tar
    ensures d.entry.version.Some? && d.entry.url.Some?
    ensures j.FileJob? ==>
      && d.entry.files.Some? && d.entry.targetDirPrefix.Some?
      && j.root == d.entry.url.value
      && j.names == d.entry.files.value
      && j.dir == Join(TargetDownloadDir(d.category), d.entry.targetDirPrefix.value + d.entry.version.value)
    ensures !j.FileJob? ==> j.url == d.entry.url.value && j.parent == TargetDownloadDir(d.category)
    ensures j.ZipJob? ==>
      && (d.entry.rootDir.Some? ==> j.rootName == d.entry.rootDir.value)
      && (d.entry.rootDir.None? ==> d.entry.rootDirPrefix.Some? && j.rootName == d.entry.rootDirPrefix.value + d.entry.version.value)
      && (d.entry.targetDir.Some? ==> j.targetName == d.entry.targetDir.value)
      && (d.entry.targetDir.None? ==> d.entry.targetDirPrefix.Some? && j.targetName == d.entry.targetDirPrefix.value + d.entry.version.value)
    ensures j.TarJob? ==>
      && d.entry.tarRootDirPrefix.Some? && d.entry.targetDirPrefix.Some?
      && j.rootName == d.entry.tarRootDirPrefix.value + d.entry.version.value
      && j.targetName == d.entry.targetDirPrefix.value + d.entry.version.value
  {
    ValidHasNames(d.entry);
  }

  /** A job whose work is already on disk: every listed file with its
      directory, or the archive's target folder. */
  predicate Materialized(j: Job, fs: FileSystem) {
    match j
    case FileJob(_, dir, names) => Ancestors(dir) <= fs && FilePaths(dir, names) <= fs
    case ZipJob(_, parent, _, targetName) => Join(parent, targetName) in fs
    case TarJob(_, parent, _, targetName) => Join(parent, targetName) in fs
  }

  /** A request a job may make: a listed file of a file-list job, or the
      archive URL of a zip or tar job. */
  predicate Requests(j: Job, q: Request) {
    match j
    case FileJob(root, _, names) => exists f :: f in names && q == Request(FileUrl(root, f), false)
    case ZipJob(url, _, _, _) => q.url == url
    case TarJob(url, _, _, _) => q == Request(url, false)
  }

  /** Runs the fetcher a job selects. A job already materialized makes no
      request and changes nothing; a job that completes leaves its work
      materialized, so running it again is a no-op. */
  function Execute(j: Job, fs: FileSystem, net: Network): (r: Run)
    ensures Materialized(j, fs) ==> r == Run(fs, [], Completed)
    ensures r.status.Completed? ==> Materialized(j, r.fs)
  {
    match j
    case FileJob(root, dir, names) =>
      var r := FetchFiles(fs, net, root, dir, names);
      assert Materialized(j, fs) ==> MakeDirs(fs, dir) + FilePaths(dir, names) == fs;
      r
    case ZipJob(url, parent, rootName, targetName) => FetchZip(fs, net, url, parent, rootName, targetName)
    case TarJob(url, parent, rootName, targetName) => FetchTar(fs, net, url, parent, rootName, targetName)
  }

  /** A job only requests its own missing files or its own archive, and
      raises only after a request. */
  lemma ExecuteRequests(j: Job, fs: FileSystem, net: Network)
    ensures forall q :: q in Execute(j, fs, net).log ==> Requests(j, q)
    ensures j.FileJob? ==> forall q :: q in Execute(j, fs, net).log ==>
      exists f :: f in j.names && Join(j.dir, f) !in fs && q == Request(FileUrl(j.root, f), false)
    ensures Execute(j, fs, net).status.Aborted? ==> Execute(j, fs, net).log != []
  {
  }

  /** The outcome of `download_all_dependencies`: the manifest is refused
      before any request, or the jobs ran. */
  datatype Outcome = Rejected(error: ManifestError) | Ran(run: Run)

  /** `download_all_dependencies`: validate everything first, then fetch. */
  function Install(m: Manifest, fs: FileSystem, net: Network): (r: Outcome)
    ensures r.Rejected? <==> exists i :: 0 <= i < |m| && !Valid(m[i].entry)
    ensures r.Rejected? ==>
      exists i :: 0 <= i < |m| && Diagnose(m[i]) == Some(r.error) && forall j :: 0 <= j < i ==> Valid(m[j].entry)
    ensures (forall i :: 0 <= i < |m| ==> Valid(m[i].entry) && Materialized(Plan(m[i]), fs)) ==>
      r == Ran(Run(fs, [], Completed))
    ensures r.Ran? ==>
      && (forall i :: 0 <= i < |m| ==> Valid(m[i].entry))
      && (forall q :: q in r.run.log ==> exists i :: 0 <= i < |m| && Requests(Plan(m[i]), q))
      && (r.run.status.Aborted? ==> r.run.log != [])
      && (r.run.status.Completed? && m != [] ==> Materialized(Plan(m[|m| - 1]), r.run.fs))
    // The run is the download loop's, so `RunPlansStep` says how each dependency is fetched in turn.
    ensures r.Ran? ==> r.run == RunPlans(m, fs, net)
  {
    match ValidateManifest(m)
    case Some(error) => Rejected(error)
    case None =>
      RunPlansRequests(m, fs, net);
      RunPlansLastMaterialized(m, fs, net);
      Ran(RunPlans(m, fs, net))
  }

  /** The jobs of a validated manifest, one per dependency, in order. */
  function Jobs(m: Manifest): (js: seq<Job>)
    requires forall i :: 0 <= i < |m| ==> Valid(m[i].entry)
    ensures |js| == |m| && forall i :: 0 <= i < |m| ==> js[i] == Plan(m[i])
  {
    seq(|m|, i requires 0 <= i < |m| => Plan(m[i]))
  }

  /** Runs jobs in turn; the first that raises ends the run. */
  function RunJobs(js: seq<Job>, fs: FileSystem, net: Network): (r: Run)
    ensures (forall i :: 0 <= i < |js| ==> Materialized(js[i], fs)) ==> r == Run(fs, [], Completed)
  {
    if js == [] then Run(fs, [], Completed)
    else
      var first := Execute(js[0], fs, net);
      if first.status.Aborted? then first
      else
        var rest := RunJobs(js[1..], first.fs, net);
        Run(rest.fs, first.log + rest.log, rest.status)
  }

  /** The download loop of a validated manifest: each dependency in turn is
      planned and its fetcher run; the first that raises ends the run. */
  function RunPlans(m: Manifest, fs: FileSystem, net: Network): (r: Run)
    requires forall i :: 0 <= i < |m| ==> Valid(m[i].entry)
    ensures (forall i :: 0 <= i < |m| ==> Materialized(Plan(m[i]), fs)) ==> r == Run(fs, [], Completed)
  {
    RunJobs(Jobs(m), fs, net)
  }

  /** Runs jobs in turn with an arbitrary `step`; the first that raises ends
      the run. `RunJobs` is this run with `Execute` as the step. */
  function RunEach(step: (Job, FileSystem) -> Run, js: seq<Job>, fs: FileSystem): (r: Run)
    ensures js == [] ==> r == Run(fs, [], Completed)
  {
    if js == [] then Run(fs, [], Completed)
    else
      var first := step(js[0], fs);
      if first.status.Aborted? then first
      else
        var rest := RunEach(step, js[1..], first.fs);
        Run(rest.fs, first.log + rest.log, rest.status)
  }

  /** The fetch of every job against `net`, as a step function. */
  function Fetch(net: Network): (Job, FileSystem) -> Run {
    (j, s) => Execute(j, s, net)
  }

  lemma {:induction false} RunJobsIsRunEach(js: seq<Job>, fs: FileSystem, net: Network)
    ensures RunJobs(js, fs, net) == RunEach(Fetch(net), js, fs)
    decreases |js|
  {
    if js != [] {
      var first := Execute(js[0], fs, net);
      assert Fetch(net)(js[0], fs) == first;
      if first.status.Completed? {
        RunJobsIsRunEach(js[1..], first.fs, net);
      }
    }
  }

  /** A run splits after its first `i` jobs: the rest runs from where those
      left the disk, with the requests in order; a prefix that raises is the
      whole run. */
  lemma {:induction false} RunEachSplit(step: (Job, FileSystem) -> Run, js: seq<Job>, i: nat, fs: FileSystem)
    requires i <= |js|
    ensures var before := RunEach(step, js[..i], fs);
      && (before.status.Aborted? ==> RunEach(step, js, fs) == before)
      && (before.status.Completed? ==>
            var after := RunEach(step, js[i..], before.fs);
            RunEach(step, js, fs) == Run(after.fs, before.log + after.log, after.status))
    decreases i
  {
    if i == 0 {
      assert js[..0] == [] && js[0..] == js;
      assert [] + RunEach(step, js, fs).log == RunEach(step, js, fs).log;
    } else {
      var first := step(js[0], fs);
      assert js[..i][0] == js[0];
      assert js[..i][1..] == js[1..][..i - 1];
      if first.status.Completed? {
        RunEachSplit(step, js[1..], i - 1, first.fs);
        var mid := RunEach(step, js[1..][..i - 1], first.fs);
        var before := RunEach(step, js[..i], fs);
        assert before == Run(mid.fs, first.log + mid.log, mid.status);
        if mid.status.Completed? {
          var after := RunEach(step, js[i..], before.fs);
          assert js[1..][i - 1..] == js[i..];
          assert first.log + (mid.log + after.log) == (first.log + mid.log) + after.log;
        }
      }
    }
  }

  /** Job `i` runs on the disk the jobs before it left, after their
      requests, unless one of them raised. */
  lemma RunEachStep(step: (Job, FileSystem) -> Run, js: seq<Job>, i: nat, fs: FileSystem)
    requires i < |js|
    ensures var before := RunEach(step, js[..i], fs);
      var x := step(js[i], before.fs);
      && (before.status.Aborted? ==> RunEach(step, js[..i + 1], fs) == before)
      && (before.status.Completed? ==> RunEach(step, js[..i + 1], fs) == Run(x.fs, before.log + x.log, x.status))
  {
    var pre := js[..i + 1];
    RunEachSplit(step, pre, i, fs);
    assert pre[..i] == js[..i];
    assert pre[i..] == [js[i]];
    assert [js[i]][1..] == [];
    var before := RunEach(step, js[..i], fs);
    var x := step(js[i], before.fs);
    assert x.log + [] == x.log;
  }

  /** Each job runs in turn: job `i` runs on the disk the jobs before it
      left, after their requests, unless one of them raised. */
  lemma RunJobsStep(js: seq<Job>, i: nat, fs: FileSystem, net: Network)
    requires i < |js|
    ensures var before := RunJobs(js[..i], fs, net);
      var x := Execute(js[i], before.fs, net);
      && (before.status.Aborted? ==> RunJobs(js[..i + 1], fs, net) == before)
      && (before.status.Completed? ==> RunJobs(js[..i + 1], fs, net) == Run(x.fs, before.log + x.log, x.status))
  {
    RunEachStep(Fetch(net), js, i, fs);
    RunJobsIsRunEach(js[..i], fs, net);
    RunJobsIsRunEach(js[..i + 1], fs, net);
    var before := RunJobs(js[..i], fs, net);
    assert Fetch(net)(js[i], before.fs) == Execute(js[i], before.fs, net);
  }

  /** The download loop runs every dependency's fetcher in manifest order:
      dependency `i` is fetched on the disk the dependencies before it left,
      after their requests, unless one of them raised. */
  lemma RunPlansStep(m: Manifest, i: nat, fs: FileSystem, net: Network)
    requires forall k :: 0 <= k < |m| ==> Valid(m[k].entry)
    requires i < |m|
    ensures var before := RunPlans(m[..i], fs, net);
      var x := Execute(Plan(m[i]), before.fs, net);
      && (before.status.Aborted? ==> RunPlans(m[..i + 1], fs, net) == before)
      && (before.status.Completed? ==> RunPlans(m[..i + 1], fs, net) == Run(x.fs, before.log + x.log, x.status))
  {
    var js := Jobs(m);
    RunJobsStep(js, i, fs, net);
    assert Jobs(m[..i]) == js[..i];
    assert Jobs(m[..i + 1]) == js[..i + 1];
  }

  /** Every request of a run of jobs is one that some job makes, and the run
      raises only after a request. */
  lemma {:induction false} RunJobsRequests(js: seq<Job>, fs: FileSystem, net: Network)
    ensures forall q :: q in RunJobs(js, fs, net).log ==> exists i :: 0 <= i < |js| && Requests(js[i], q)
    ensures RunJobs(js, fs, net).status.Aborted? ==> RunJobs(js, fs, net).log != []
    decreases |js|
  {
    if js != [] {
      var first := Execute(js[0], fs, net);
      ExecuteRequests(js[0], fs, net);
      if first.status.Aborted? {
        assert RunJobs(js, fs, net) == first;
        assert forall q :: q in first.log ==> Requests(js[0], q);
      } else {
        var rest := RunJobs(js[1..], first.fs, net);
        RunJobsRequests(js[1..], first.fs, net);
        assert RunJobs(js, fs, net).log == first.log + rest.log;
        forall q | q in first.log + rest.log
          ensures exists i :: 0 <= i < |js| && Requests(js[i], q)
        {
          if q !in first.log {
            var i :| 0 <= i < |js[1..]| && Requests(js[1..][i], q);
            assert js[1..][i] == js[i + 1];
          }
        }
      }
    }
  }

  /** Every request of the download loop is one that some dependency's job
      makes, and the loop raises only after a request. */
  lemma RunPlansRequests(m: Manifest, fs: FileSystem, net: Network)
    requires forall i :: 0 <= i < |m| ==> Valid(m[i].entry)
    ensures forall q :: q in RunPlans(m, fs, net).log ==> exists i :: 0 <= i < |m| && Requests(Plan(m[i]), q)
    ensures RunPlans(m, fs, net).status.Aborted? ==> RunPlans(m, fs, net).log != []
  {
    RunJobsRequests(Jobs(m), fs, net);
  }

  /** A run of one job is that job's fetch. */
  lemma RunJobsOne(j: Job, fs: FileSystem, net: Network)
    ensures RunJobs([j], fs, net) == Execute(j, fs, net)
  {
    assert [j][1..] == [];
  }

  /** A completed run of jobs leaves the last job's work on disk. */
  lemma {:induction false} RunJobsLastMaterialized(js: seq<Job>, fs: FileSystem, net: Network)
    ensures RunJobs(js, fs, net).status.Completed? && js != [] ==>
      Materialized(js[|js| - 1], RunJobs(js, fs, net).fs)
    decreases |js|
  {
    var r := RunJobs(js, fs, net);
    if js != [] {
      var first := Execute(js[0], fs, net);
      if first.status.Completed? {
        var rest := RunJobs(js[1..], first.fs, net);
        assert r.fs == rest.fs && r.status == rest.status;
        if |js| == 1 {
          assert js[1..] == [];
          assert rest.fs == first.fs && js[|js| - 1] == js[0];
        } else {
          RunJobsLastMaterialized(js[1..], first.fs, net);
          assert js[|js| - 1] == js[1..][|js[1..]| - 1];
        }
      } else {
        assert r.status == first.status;
      }
    }
  }

  /** A completed download loop leaves the last dependency's work on disk. */
  lemma RunPlansLastMaterialized(m: Manifest, fs: FileSystem, net: Network)
    requires forall i :: 0 <= i < |m| ==> Valid(m[i].entry)
    ensures RunPlans(m, fs, net).status.Completed? && m != [] ==>
      Materialized(Plan(m[|m| - 1]), RunPlans(m, fs, net).fs)
  {
    var js := Jobs(m);
    RunJobsLastMaterialized(js, fs, net);
    if m != [] {
      assert js[|js| - 1] == Plan(m[|m| - 1]);
    }
  }

  /** Running a job that has completed once makes no request and changes
      nothing: the fetchers are idempotent. */
  lemma ExecuteIdempotent(j: Job, fs: FileSystem, net: Network)
    requires Execute(j, fs, net).status.Completed?
    ensures Execute(j, Execute(j, fs, net).fs, net) == Run(Execute(j, fs, net).fs, [], Completed)
  {
  }

  /** The zip entry `{version: "3", url: "https://x/pkg-3.zip",
      downloadFormat: "zip", rootDirPrefix: "pkg-", targetDirPrefix: "pkg-"}`
      in category `proto`. */
  const ExampleUrl: string := "https://x/pkg-3.zip"
  const ExampleEntry: Entry := Entry(Some("3"), Some("zip"), Some(ExampleUrl), None, Some("pkg-"), None, Some("pkg-"), None, None)

  /** The example entry is valid, and both its archive root and its target
      resolve to `pkg-3` under `./third_party`. */
  lemma ZipExamplePlan()
    ensures Valid(ExampleEntry)
    ensures Plan(Dependency(Proto, "pkg", ExampleEntry)) == ZipJob(ExampleUrl, [".", "third_party"], "pkg-3", "pkg-3")
  {
    var url := ExampleUrl;
    var e := ExampleEntry;
    assert '#' !in url;
    assert StripFragment(url) == url;
    assert url[|url| - 4..] == ".zip";
    assert UrlFits(Zip, StripFragment(e.url.value));
    assert MandatoryKeys(Zip) == [Version, Url, DownloadFormat];
    assert forall k :: k in MandatoryKeys(Zip) ==> Has(e, k);
    assert forall p :: p in OptionalKeyPairs(Zip) ==> ExactlyOne(e, p);
    assert WellFormed(Zip, e);
    assert ParseFormat("zip") == Some(Zip);
    assert "pkg-" + "3" == "pkg-3";
  }

  /** The archive of the example: one file inside the folder `pkg-3`. */
  const ExampleNet: Network := map[ExampleUrl := Resource(Some({["pkg-3", "main.js"]}), None)]

  /** Fetching the example's archive into an empty filesystem renames
      `pkg-3` onto itself and keeps its file. */
  /** Unpacking an archive of one member whose root folder keeps its name
      completes and leaves that member under the root folder. */
  lemma UnpackSingle(fs: FileSystem, log: seq<Request>, parent: Path, m: Path)
    requires !(parent <= TmpUnzipPath) && m != []
    ensures var r := Unpack(fs, log, parent, {m}, true, m[0], m[0]);
      r.status.Completed? && r.log == log && Below(Join(parent, m[0]), m[1..]) in r.fs
  {
    assert m in {m};
  }

  lemma ZipExampleFetches()
    ensures
      var r := FetchZip({}, ExampleNet, ExampleUrl, [".", "third_party"], "pkg-3", "pkg-3");
      && r.status.Completed? && r.log == [Request(ExampleUrl, false)]
      && [".", "third_party", "pkg-3", "main.js"] in r.fs
  {
    var a: Archive := {["pkg-3", "main.js"]};
    var parent := [".", "third_party"];
    assert !(parent <= TmpUnzipPath) by {
      assert |parent[1]| != |TmpUnzipPath[1]|;
    }
    var downloaded := MakeDirs({}, parent) + {TmpUnzipPath};
    var r := FetchZip({}, ExampleNet, ExampleUrl, parent, "pkg-3", "pkg-3");
    assert r == Unpack(downloaded, [Request(ExampleUrl, false)], parent, a, true, "pkg-3", "pkg-3");
    var m := ["pkg-3", "main.js"];
    UnpackSingle(downloaded, [Request(ExampleUrl, false)], parent, m);
    assert m[0] == "pkg-3" && m[1..] == ["main.js"];
    ExamplePaths();
  }

  /** The example's target folder and file, spelled out. */
  lemma ExamplePaths()
    ensures Join([".", "third_party"], "pkg-3") == [".", "third_party", "pkg-3"]
    ensures Below(Join([".", "third_party"], "pkg-3"), ["main.js"]) == [".", "third_party", "pkg-3", "main.js"]
  {
  }

  /** Installing the example manifest into an empty filesystem fetches the
      URL once and leaves the archive's files under `./third_party/pkg-3`. */
  lemma ZipExampleInstalls()
    ensures
      var r := Install([Dependency(Proto, "pkg", ExampleEntry)], {}, ExampleNet);
      && r.Ran? && r.run.status.Completed? && r.run.log == [Request(ExampleUrl, false)]
      && [".", "third_party", "pkg-3"] in r.run.fs
      && [".", "third_party", "pkg-3", "main.js"] in r.run.fs
  {
    ZipExampleFetches();
    ZipExampleOutcome();
    ExamplePaths();
  }

  /** Installing the example manifest is the zip fetch of its archive. */
  lemma ZipExampleOutcome()
    ensures Install([Dependency(Proto, "pkg", ExampleEntry)], {}, ExampleNet)
      == Ran(FetchZip({}, ExampleNet, ExampleUrl, [".", "third_party"], "pkg-3", "pkg-3"))
  {
    ZipExamplePlan();
    ZipExampleRunsJob();
  }

  /** The download loop over the example manifest is the zip fetch of its
      archive. */
  lemma ZipExampleRunsJob()
    requires Valid(ExampleEntry)
    ensures RunPlans([Dependency(Proto, "pkg", ExampleEntry)], {}, ExampleNet)
      == FetchZip({}, ExampleNet, ExampleUrl, [".", "third_party"], "pkg-3", "pkg-3")
  {
    var m := [Dependency(Proto, "pkg", ExampleEntry)];
    var j := ZipJob(ExampleUrl, [".", "third_party"], "pkg-3", "pkg-3");
    ZipExamplePlan();
    assert Jobs(m) == [j];
    RunJobsOne(j, {}, ExampleNet);
  }
}

=== FILE: schema.dfy ===
/** The manifest entry and the syntax check every entry must pass before
    anything is downloaded (`DOWNLOAD_FORMATS_TO_DEPENDENCIES_KEYS` and
    `test_dependencies_syntax` in scripts/install_dependencies_json_packages.py). */
module Schema {
  import opened Wrappers

  /** The three values `downloadFormat` may take. */
  datatype Format = Zip | Tar | Files

  /** The tag that names a format in the manifest. */
  function FormatTag(f: Format): (tag: string)
    ensures ParseFormat(tag) == Some(f)
  {
    match f
    case Zip => "zip"
    case Tar => "tar"
    case Files => "files"
  }

  /** Looks a tag up among the known formats; `None` is the `KeyError` the
      table lookup raises for any other tag. */
  function ParseFormat(tag: string): (f: Option<Format>)
    ensures f == Some(Zip) <==> tag == "zip"
    ensures f == Some(Tar) <==> tag == "tar"
    ensures f == Some(Files) <==> tag == "files"
  {
    if tag == "zip" then Some(Zip)
    else if tag == "tar" then Some(Tar)
    else if tag == "files" then Some(Files)
    else None
  }

  /** The keys of a manifest entry that the installer reads. */
  datatype Key =
    | Version | DownloadFormat | Url
    | RootDir | RootDirPrefix | TargetDir | TargetDirPrefix
    | TarRootDirPrefix | FileList

  /** One dependency of the manifest, already parsed: each key is either
      absent or carries its value. */
  datatype Entry = Entry(
    version: Option<string>,
    downloadFormat: Option<string>,
    url: Option<string>,
    rootDir: Option<string>,
    rootDirPrefix: Option<string>,
    targetDir: Option<string>,
    targetDirPrefix: Option<string>,
    tarRootDirPrefix: Option<string>,
    files: Option<seq<string>>)

  /** `key in dependency_dict.keys()`. */
  predicate Has(e: Entry, k: Key) {
    match k
    case Version => e.version.Some?
    case DownloadFormat => e.downloadFormat.Some?
    case Url => e.url.Some?
    case RootDir => e.rootDir.Some?
    case RootDirPrefix => e.rootDirPrefix.Some?
    case TargetDir => e.targetDir.Some?
    case TargetDirPrefix => e.targetDirPrefix.Some?
    case TarRootDirPrefix => e.tarRootDirPrefix.Some?
    case FileList => e.files.Some?
  }

  /** The keys every entry of a format must carry, in the order they are
      checked. */
  function MandatoryKeys(f: Format): (keys: seq<Key>)
    ensures Version in keys && Url in keys && DownloadFormat in keys
    ensures f == Files ==> FileList in keys && TargetDirPrefix in keys
    ensures f == Tar ==> TarRootDirPrefix in keys && TargetDirPrefix in keys
  {
    match f
    case Zip => [Version, Url, DownloadFormat]
    case Files => [Version, Url, FileList, TargetDirPrefix, DownloadFormat]
    case Tar => [Version, Url, TarRootDirPrefix, TargetDirPrefix, DownloadFormat]
  }

  /** The pairs of keys of which an entry must carry exactly one: an explicit
      name or a prefix to which the version is appended. */
  function OptionalKeyPairs(f: Format): (pairs: seq<(Key, Key)>)
    ensures f != Zip ==> pairs == []
    ensures f == Zip ==> (RootDir, RootDirPrefix) in pairs && (TargetDir, TargetDirPrefix) in pairs
  {
    match f
    case Zip => [(RootDir, RootDirPrefix), (TargetDir, TargetDirPrefix)]
    case _ => []
  }

  /** The outcome of checking one entry: the first rule it breaks, if any. */
  datatype Verdict =
    | Ok
    | MissingKey(key: Key)
    | PairViolation(pair: (Key, Key))
    | BadUrl(url: string)

  /** How many members of `pair` the entry carries, as
      `test_dependencies_syntax` counts them. */
  function PresentCount(e: Entry, pair: (Key, Key)): nat {
    (if Has(e, pair.0) then 1 else 0) + (if Has(e, pair.1) then 1 else 0)
  }

  /** The rule the pair check stands for: one member present, not both. */
  predicate ExactlyOne(e: Entry, pair: (Key, Key)) {
    Has(e, pair.0) != Has(e, pair.1)
  }

  /** The position of the first key of `keys` that the entry lacks, or
      `|keys|` when it carries them all. */
  function FirstMissing(keys: seq<Key>, e: Entry): (i: nat)
    ensures i <= |keys|
    ensures forall j :: 0 <= j < i ==> Has(e, keys[j])
    ensures i < |keys| ==> !Has(e, keys[i])
  {
    if keys == [] || !Has(e, keys[0]) then 0
    else 1 + FirstMissing(keys[1..], e)
  }

  /** The position of the first pair whose count is not one, or `|pairs|`.
      The body tests the count as `test_dependencies_syntax` does; the
      contract states it as the exactly-one rule. */
  function FirstBadPair(pairs: seq<(Key, Key)>, e: Entry): (i: nat)
    ensures i <= |pairs|
    ensures forall j :: 0 <= j < i ==> ExactlyOne(e, pairs[j])
    ensures i < |pairs| ==> Has(e, pairs[i].0) == Has(e, pairs[i].1)
  {
    if pairs == [] || PresentCount(e, pairs[0]) != 1 then 0
    else 1 + FirstBadPair(pairs[1..], e)
  }

  /** The index of the last occurrence of `c` in `s`. */
  function LastIndexOf(s: string, c: char): (r: Option<nat>)
    ensures r.None? <==> c !in s
    ensures r.Some? ==> r.value < |s| && s[r.value] == c && c !in s[r.value + 1..]
  {
    if s == [] then None
    else if s[|s| - 1] == c then Some(|s| - 1)
    else
      var r := LastIndexOf(s[..|s| - 1], c);
      assert s[..|s| - 1] + [s[|s| - 1]] == s;
      if r.Some? then
        assert s[r.value + 1..] == s[..|s| - 1][r.value + 1..] + [s[|s| - 1]];
        r
      else r
  }

  /** `url.rpartition('#')[0]` when the URL holds a `#`: the URL cut just
      before its last `#`. A URL without `#` is kept whole. */
  function StripFragment(url: string): (r: string)
    ensures '#' !in url ==> r == url
    ensures '#' in url ==> |r| < |url| && url[..|r|] == r && url[|r|] == '#' && '#' !in url[|r| + 1..]
  {
    match LastIndexOf(url, '#')
    case None => url
    case Some(i) => url[..i]
  }

  /** Python's `s.endswith(suffix)`. */
  predicate EndsWith(s: string, suffix: string) {
    |suffix| <= |s| && s[|s| - |suffix|..] == suffix
  }

  /** The URL condition exactly as `test_dependencies_syntax` writes it: a
      violation is a `.zip` URL for another format, a zip entry without
      one, and the same for `.tar.gz` and tar. */
  predicate UrlCheckPasses(f: Format, url: string) {
    var isZipFile := EndsWith(url, ".zip");
    var isTarFile := EndsWith(url, ".tar.gz");
    var isZip := f == Zip;
    var isTar := f == Tar;
    !((isZipFile && !isZip) || (isZip && !isZipFile) || (isTarFile && !isTar) || (isTar && !isTarFile))
  }

  /** The URL rule per format: zip URLs end in `.zip`, tar URLs in `.tar.gz`,
      and a file-list URL in neither. */
  predicate UrlFits(f: Format, url: string) {
    match f
    case Zip => EndsWith(url, ".zip")
    case Tar => EndsWith(url, ".tar.gz")
    case Files => !EndsWith(url, ".zip") && !EndsWith(url, ".tar.gz")
  }

  /** No URL ends in both `.zip` and `.tar.gz`. */
  lemma SuffixesExclusive(url: string)
    ensures !(EndsWith(url, ".zip") && EndsWith(url, ".tar.gz"))
  {
    if EndsWith(url, ".zip") {
      assert url[|url| - 1] == 'p' by {
        assert url[|url| - 4..][3] == url[|url| - 1];
      }
      if |url| >= 7 {
        assert url[|url| - 7..][6] == url[|url| - 1];
      }
    }
  }

  /** The four-way condition of `test_dependencies_syntax` is the
      per-format rule. */
  lemma UrlCheckIsUrlFits(f: Format, url: string)
    ensures UrlCheckPasses(f, url) <==> UrlFits(f, url)
  {
    SuffixesExclusive(url);
  }

  /** Everything the syntax check demands of an entry of format `f`. */
  predicate WellFormed(f: Format, e: Entry) {
    && (forall k :: k in MandatoryKeys(f) ==> Has(e, k))
    && (forall p :: p in OptionalKeyPairs(f) ==> ExactlyOne(e, p))
    && e.url.Some?
    && UrlFits(f, StripFragment(e.url.value))
  }

  /** `test_dependencies_syntax`: mandatory keys in table order, then the
      pairs, then the URL; the first failure is the verdict. */
  function CheckEntry(f: Format, e: Entry): (v: Verdict)
    ensures v.Ok? <==> WellFormed(f, e)
    ensures v.MissingKey? ==>
      exists i :: 0 <= i < |MandatoryKeys(f)| && MandatoryKeys(f)[i] == v.key && !Has(e, v.key)
        && forall j :: 0 <= j < i ==> Has(e, MandatoryKeys(f)[j])
    ensures v.PairViolation? ==>
      && (forall k :: k in MandatoryKeys(f) ==> Has(e, k))
      && Has(e, v.pair.0) == Has(e, v.pair.1)
      && exists i :: 0 <= i < |OptionalKeyPairs(f)| && OptionalKeyPairs(f)[i] == v.pair
           && forall j :: 0 <= j < i ==> ExactlyOne(e, OptionalKeyPairs(f)[j])
    ensures v.BadUrl? ==>
      && (forall k :: k in MandatoryKeys(f) ==> Has(e, k))
      && (forall p :: p in OptionalKeyPairs(f) ==> ExactlyOne(e, p))
      && e.url.Some? && v.url == StripFragment(e.url.value) && !UrlFits(f, v.url)
  {
    var keys := MandatoryKeys(f);
    var pairs := OptionalKeyPairs(f);
    var m := FirstMissing(keys, e);
    if m < |keys| then
      assert !Has(e, keys[m]);
      MissingKey(keys[m])
    else
      var b := FirstBadPair(pairs, e);
      if b < |pairs| then
        assert Has(e, pairs[b].0) == Has(e, pairs[b].1);
        PairViolation(pairs[b])
      else if e.url.None? then MissingKey(Url)
      else
        var url := StripFragment(e.url.value);
        UrlCheckIsUrlFits(f, url);
        if UrlCheckPasses(f, url) then Ok else BadUrl(url)
  }
}

=== FILE: wrappers.dfy ===
/** A value that may be absent: a key missing from a manifest entry, a URL
    without a `#`, a download that produced no archive. */
module Wrappers {
  datatype Option<+T> = None | Some(value: T)
}
